=== FILE: README.md ===
# ParkedTextView prefix bookkeeping in Dafny

ParkedTextView is an Android `EditText` that keeps a fixed "parked" text
(`mParkedText`) at the front of its contents. The user types after it, and the
widget puts the prefix back whenever an edit damages it. The widget keeps a copy
of the whole contents (`mTotalText`) and re-runs its bookkeeping on every text
change.

This project models that bookkeeping as a small deterministic state machine over
an immutable `View`:

- `parked` is the prefix;
- `total` is the bookkeeping text;
- `field` is the plain text shown by the `EditText`;
- `caret` is the caret position.

Each source method is a pure function on `View`. The Java pieces it relies on
(`startsWith`, `substring` and its `StringIndexOutOfBoundsException`,
`TextUtils.isEmpty`, null and `NullPointerException`) are modelled in
`JavaLang`. A Java string is a sequence of UTF-16 code units, and `length()`,
`substring` and `startsWith` count in those units; so every text in the model is
a `JString`, a sequence of 16-bit `JChar` code units, and every length the
source compares is a count of code units. `Utf16` encodes a Dafny string literal
the way a Java literal holds it, a character outside the Basic Multilingual
Plane becoming a surrogate pair.

Files:

- `java_lang.dfy` (`JavaLang`): UTF-16 code units, the Java string operations, nullable values and thrown exceptions.
- `parked_text_view.dfy` (`ParkedTextView`): the state, every modelled method of the class and the text watcher.
- `editing.dfy` (`Editing`): user keystrokes and deletions followed by the watcher, and what the user then sees.
- `prefix_swap.dfy` (`PrefixSwap`): replacing the prefix of a widget that already holds text, as written and as intended.

Behaviour of the code worth knowing, all proved in the model:

- Construction sets `total` to the prefix but does not render anything: the
  `EditText` stays empty. The prefix first appears with the first keystroke.
  A first keystroke of one code unit takes the fresh-field branch, except when
  the prefix is empty or is that single unit: then it takes the accept branch.
- The fresh-field test reads the length of the field, not of the incoming text.
  The watcher passes the field's own contents, so on that path the two coincide.
  `setParkedText` passes the new `total`, which always takes the accept branch,
  so the field is NOT re-rendered after a prefix swap.
- `setParkedText` on an empty `total` only stores the new prefix. The text then
  does not start with the prefix until the next keystroke. For this reason the
  invariant of every reachable state (`Consistent`) says "begins with the prefix
  or is empty".
- A one-character prefix equal to the first typed character swallows that
  keystroke: with prefix `$`, typing `$5` shows `$5`, not `$$5`.
- With a two-character prefix and nothing typed, a backspace leaves one
  character. The field length is then 1, so the fresh-field branch puts the
  prefix in front of it: prefix `ab` becomes `aba`.
- The fresh-field test counts code units. A first keystroke outside the Basic
  Multilingual Plane (an emoji such as U+1F600) puts two units in the field at
  once. Unless the prefix is empty or an initial part of that pair (the pair
  starts with the prefix), it takes the reject branch and is discarded: with
  prefix `+1 ` the field shows `+1 ` alone, where a digit would show `+1 5`.
  When the pair does start with the prefix, it is accepted and shown alone.
- `setParkedText(null)` throws `NullPointerException` before changing anything.

## Model

| member | source | states |
|---|---|---|
| `JavaLang.Substring` | parkedtextview/src/main/java/com/goka/parkedtextview/ParkedTextView.java:113 | `substring(begin)` returns exactly when `begin` is at most the number of code units, and then the text is its first `begin` units followed by the result; otherwise it throws `StringIndexOutOfBoundsException`. |
| `ParkedTextView.TypedText` | parkedtextview/src/main/java/com/goka/parkedtextview/ParkedTextView.java:123-128 | When the text begins with the prefix, the prefix followed by the result gives back the text. Otherwise the result is the whole text. |
| `ParkedTextView.TypedTextAfterPrefix` | parkedtextview/src/main/java/com/goka/parkedtextview/ParkedTextView.java:123-128 | Taking the prefix off the prefix followed by `x` gives back exactly `x`. |
| `ParkedTextView.Rendered` | parkedtextview/src/main/java/com/goka/parkedtextview/ParkedTextView.java:149-159 | Taking the rendering as plain text (see "## Left out"), the rendered text begins with the prefix and carries the same typed text as `total`. It equals `total` when `total` already begins with the prefix. |
| `ParkedTextView.ObserveText` | parkedtextview/src/main/java/com/goka/parkedtextview/ParkedTextView.java:100-102 | Afterwards `total` begins with the prefix. A prefixed `total` is left as it is; any other `total` gets the prefix put in front. Nothing else changes. |
| `ParkedTextView.Init` | parkedtextview/src/main/java/com/goka/parkedtextview/ParkedTextView.java:74-79 | Starting from an empty `total`, observing leaves `total` equal to the prefix. The field stays empty with the caret at 0. |
| `ParkedTextView.Construct` | parkedtextview/src/main/java/com/goka/parkedtextview/ParkedTextView.java:40-76 | A missing attribute gives the empty prefix. After construction `total` equals the prefix, the field is empty, and the state is consistent. |
| `ParkedTextView.GoToEndOfText` | parkedtextview/src/main/java/com/goka/parkedtextview/ParkedTextView.java:130-132 | The caret goes after the last character of the field. Nothing else changes. |
| `ParkedTextView.TextChanged` | parkedtextview/src/main/java/com/goka/parkedtextview/ParkedTextView.java:161-180 | In every branch `total` ends up beginning with the unchanged prefix, and the caret ends last. Accept (the text begins with the prefix) stores the text and leaves the field alone. Fresh (otherwise, with a field of at most one UTF-16 code unit) makes the text the typed text. Reject keeps the old typed text, so a prefixed `total` is unchanged. The two re-rendering branches show `total` in the field. |
| `ParkedTextView.AfterTextChanged` | parkedtextview/src/main/java/com/goka/parkedtextview/ParkedTextView.java:225-233 | From any state, one edit leaves the widget synced: the field shows `total`, `total` begins with the prefix, and the caret is last. It also states the branch outcomes in terms of the edited text, whose length is counted in UTF-16 code units: a prefixed text is stored; an unprefixed text of at most one unit is put after the prefix; a longer one keeps the old typed text. |
| `ParkedTextView.SetParkedText` | parkedtextview/src/main/java/com/goka/parkedtextview/ParkedTextView.java:108-121 | A null prefix throws `NullPointerException`. Otherwise the call throws `StringIndexOutOfBoundsException` exactly when `total` is non-empty and has fewer code units than the new prefix. On an empty `total` only the prefix changes. Otherwise the new `total` begins with the new prefix, keeps its length and the code units beyond the new prefix's length. The field is not re-rendered and the caret goes last. |
| `ParkedTextView.SetParkedTextKeepsConsistent` | parkedtextview/src/main/java/com/goka/parkedtextview/ParkedTextView.java:108-121 | A prefix swap that does not throw keeps a consistent state consistent. |
| `ParkedTextView.SetParkedTextSamePrefix` | parkedtextview/src/main/java/com/goka/parkedtextview/ParkedTextView.java:108-117 | Parking the prefix that a non-empty text already begins with changes nothing except moving the caret last. |
| `ParkedTextView.ReformatColor` | parkedtextview/src/main/java/com/goka/parkedtextview/ParkedTextView.java:138-147 | The result is a suffix of the token, at most three characters shorter. It equals the token exactly when the token has no leading `#` and at most six characters. Tokens of at most eight characters come out at six or fewer. |
| `ParkedTextView.ReformatColorNormalises` | parkedtextview/src/main/java/com/goka/parkedtextview/ParkedTextView.java:138-147 | Every hex token of the form RRGGBB, #RRGGBB, AARRGGBB or #AARRGGBB becomes its six RRGGBB digits. |
| `Editing.TypeFirst` | parkedtextview/src/main/java/com/goka/parkedtextview/ParkedTextView.java:167-170 | A first keystroke of one code unit into a just-constructed widget shows the prefix followed by that unit. The exceptions are the empty prefix and a one-unit prefix equal to it, which show the unit alone. |
| `Editing.TypeAtEnd` | parkedtextview/src/main/java/com/goka/parkedtextview/ParkedTextView.java:163-165 | A keystroke at the end of a synced field is accepted: the field grows by that character and stays synced. |
| `Editing.TypeAllShown` | parkedtextview/src/main/java/com/goka/parkedtextview/ParkedTextView.java:161-180 | Typing any non-empty text one code unit at a time after construction leaves the widget synced and showing `Shown(prefix, text)`. |
| `Editing.TypingShowsPrefixThenText` | parkedtextview/src/main/java/com/goka/parkedtextview/ParkedTextView.java:161-180 | After typing a non-empty text into a constructed widget, the field shows the prefix followed by that text, caret last, if and only if the first keystroke is not swallowed. |
| `Editing.DeleteInsidePrefix` | parkedtextview/src/main/java/com/goka/parkedtextview/ParkedTextView.java:161-177 | Deleting inside the prefix of a synced field of three or more code units either restores it untouched, or acts like deleting the first typed unit. On a field of at most two code units whose remaining text no longer starts with the prefix, that text becomes typed text after the prefix. |
| `Editing.SupplementaryFirstKeystrokeRejected` | parkedtextview/src/main/java/com/goka/parkedtextview/ParkedTextView.java:167-177 | A first keystroke outside the Basic Multilingual Plane arrives as two code units. Unless the prefix is empty or an initial part of the pair (the pair starts with the prefix), it is discarded and the field shows the prefix alone, caret last. |
| `Editing.SupplementaryFirstKeystrokeKept` | parkedtextview/src/main/java/com/goka/parkedtextview/ParkedTextView.java:163-165 | When the pair of a first keystroke outside the Basic Multilingual Plane starts with the prefix (an empty prefix included), it is accepted: the field and `total` show the pair alone, caret last. |
| `Editing.EmojiFirstKeystrokeDiscarded` | parkedtextview/src/main/java/com/goka/parkedtextview/ParkedTextView.java:167-177 | With prefix `+1 `, a first keystroke U+1F600 leaves the field showing `+1 `. |
| `Editing.DigitFirstKeystrokeShown` | parkedtextview/src/main/java/com/goka/parkedtextview/ParkedTextView.java:167-170 | With prefix `+1 `, a first keystroke `5` shows `+1 5`. |
| `Editing.TypingBmpText` | parkedtextview/src/main/java/com/goka/parkedtextview/ParkedTextView.java:161-180 | Typing a Basic Multilingual Plane text after a prefix that is not one character shows the encoding of prefix and text, one code unit per character, caret last. |
| `Editing.TypingPhoneNumber` | parkedtextview/src/main/java/com/goka/parkedtextview/ParkedTextView.java:225-233 | With prefix `+1 `, typing `5551234567` shows `+1 ` followed by the digits, with the caret at 13. |
| `Editing.ClearingLeavesPrefix` | parkedtextview/src/main/java/com/goka/parkedtextview/ParkedTextView.java:167-170 | Deleting the whole field (all of `+1 555`, say) leaves exactly the non-empty prefix, with the caret after it. |
| `Editing.BackspaceOnTwoCharacterPrefix` | parkedtextview/src/main/java/com/goka/parkedtextview/ParkedTextView.java:167-170 | With any two-unit prefix `ab`, typing `x` and then two backspaces shows `abx`, then `ab`, then `aba`. |
| `PrefixSwap.SetParkedTextKeepsTypedOnlyForSameLength` | parkedtextview/src/main/java/com/goka/parkedtextview/ParkedTextView.java:108-117 | As written, a prefix swap keeps the typed text if and only if the old and new prefixes have the same length. |
| `PrefixSwap.SetParkedTextLosesTypedCharacter` | parkedtextview/src/main/java/com/goka/parkedtextview/ParkedTextView.java:108-117 | As written, a new prefix one code unit longer than the old one swallows the first typed code unit: the new text is the new prefix followed by the old typed text without its first unit. |
| `PrefixSwap.SwapPhonePrefix` | parkedtextview/src/main/java/com/goka/parkedtextview/ParkedTextView.java:108-117 | Swapping `+1 ` for `+44 ` with `555` typed leaves `+44 55`. |
| `PrefixSwap.SetParkedTextOverTypedText` | parkedtextview/src/main/java/com/goka/parkedtextview/ParkedTextView.java:108-117 | With no prefix and a text typed, parking a prefix no longer than it overwrites that many leading code units of the text. |
| `PrefixSwap.SetParkedTextOnHello` | parkedtextview/src/main/java/com/goka/parkedtextview/ParkedTextView.java:108-117 | With no prefix and `Hello` typed, parking `Re: ` gives `Re: o`. |
| `PrefixSwap.SetParkedTextThrowsWhenLonger` | parkedtextview/src/main/java/com/goka/parkedtextview/ParkedTextView.java:112-113 | A reachable state throws `StringIndexOutOfBoundsException`: no prefix, one unit `a` typed, then parking a two-unit prefix beginning with `a`. |
| `PrefixSwap.SetParkedTextOnEmptyTextDefersPrefix` | parkedtextview/src/main/java/com/goka/parkedtextview/ParkedTextView.java:118-120 | Parking a non-empty prefix on an empty text leaves the text without it. The next keystroke `c` (other than a prefix equal to `c`) shows the prefix followed by `c`, as `$` then `5` shows `$5`. |
| `PrefixSwap.SetParkedTextKeepingTyped` | parkedtextview/src/main/java/com/goka/parkedtextview/ParkedTextView.java:108-121 | The intended swap never throws. The new text begins with the new prefix and carries the same typed text as before. The field is not re-rendered. |
| `PrefixSwap.KeepingTypedAgreesForSameLength` | parkedtextview/src/main/java/com/goka/parkedtextview/ParkedTextView.java:108-117 | For a prefixed text and a new prefix of the same length, the source's swap and the intended swap give the same state. |
| `PrefixSwap.KeepingTypedRoundTrip` | parkedtextview/src/main/java/com/goka/parkedtextview/ParkedTextView.java:108-121 | The intended swap keeps states consistent. Swapping to a non-empty prefix and back restores the bookkeeping text. |

## Left out

- Reading the XML attributes (`TypedArray`, colours, bold flag, hint) is Android framework plumbing. `Construct` takes only the `parkedText` attribute, as a nullable string. The two-argument constructor delegates to the three-argument one, so it is `Construct` of the attribute as well. The one-argument constructor keeps the default empty prefix and behaves as `Construct(Null)`.
- `Html.fromHtml` and `String.format` are a foreign renderer. Stripping is modelled as the identity, both in `getHtmlText` and on the argument of `setParkedText`. The prefix and typed text are assumed to hold no markup, no character entities and no whitespace that `Html.fromHtml` collapses or drops (runs of spaces, newlines, leading whitespace). Under that assumption the rendered plain text is the prefix followed by the typed text, whatever the bold flag. `Synced` after a re-rendering edit, as `ParkedTextView.AfterTextChanged` states it, holds only under that assumption: for example, prefix `+1 ` with a typed space gives `total` `+1  `, which `Html.fromHtml` would show as `+1 `.
- `setPlaceholderText` and `setHint` only style the hint. They do not touch `total` or the field.
- Detaching and re-attaching the watcher around `afterTextChanged` is a re-entrancy guard. Each edit is one atomic `AfterTextChanged` step.
- `setTypedText` only forwards to `textChanged`. It is modelled as part of `AfterTextChanged`.
- The colour and bold getters and setters, and `getParkedText`, are plain field accessors.
- The `EditText` is reduced to its plain text and a single caret. Selections, spans and any initial `android:text` are not modelled: construction starts from an empty field.
- `Editing.TypingShowsPrefixThenText`, `Editing.TypeAllShown` and `Editing.TypeFirst`: stated for typing one code unit at a time at the end of the field after construction. It does not cover arbitrary caret moves between keystrokes; a keystroke of two units (a surrogate pair) is covered by `Editing.SupplementaryFirstKeystrokeRejected` and `Editing.SupplementaryFirstKeystrokeKept` only as a first keystroke.
- The keyboard is reduced to `Editing.Commit`, which inserts the committed code units at the caret. Input-method composition and replacing a selection are not modelled.

## Findings

| source | as written | input that shows it | evidently intended | confidence | as-written member | corrected member |
|---|---|---|---|---|---|---|
| parkedtextview/src/main/java/com/goka/parkedtextview/ParkedTextView.java:113 | The old text is sliced at the NEW prefix's length. | Prefix `+1 `, `555` typed, `setParkedText("+44 ")` gives `+44 55` (`PrefixSwap.SwapPhonePrefix`). | The new prefix followed by the old typed text, `+44 555`. | medium, not executed | `PrefixSwap.SetParkedTextLosesTypedCharacter` | `PrefixSwap.SetParkedTextKeepingTyped` |
| parkedtextview/src/main/java/com/goka/parkedtextview/ParkedTextView.java:113 | `substring` throws when the new prefix is longer than the current text. | No prefix, `a` typed, `setParkedText("ab")` throws `StringIndexOutOfBoundsException`. | The prefix is replaced and `a` stays typed, giving `aba`. | medium, not executed | `PrefixSwap.SetParkedTextThrowsWhenLonger` | `PrefixSwap.SetParkedTextKeepingTyped` |

=== FILE: editing.dfy ===
/**
 What the user sees when editing a ParkedTextView: keystrokes and deletions made
 in the EditText, each followed by one run of the text watcher.
 */
module Editing {
  import opened JavaLang
  import opened ParkedTextView

  /** Where a keystroke lands: the caret, or the end of the field if the caret
      were past it. */
  function CaretIn(v: View): (k: nat)
    ensures k <= |v.field|
    ensures v.caret <= |v.field| ==> k == v.caret
  {
    if v.caret <= |v.field| then v.caret else |v.field|
  }

  /** The keyboard commits the code units `keys` at the caret; the watcher then
      settles the widget. */
  function Commit(v: View, keys: JString): View {
    var k := CaretIn(v);
    AfterTextChanged(v, v.field[..k] + keys + v.field[k..])
  }

  /** The user types a character that is one code unit. */
  function Type(v: View, c: JChar): View {
    Commit(v, [c])
  }

  /** The user types the code units of `s` one after another. */
  function TypeAll(v: View, s: JString): View
    decreases |s|
  {
    if s == [] then v else Type(TypeAll(v, s[..|s| - 1]), s[|s| - 1])
  }

  /** The user deletes the character at index `i` of the field. */
  function DeleteAt(field: JString, i: nat): (t: JString)
    requires i < |field|
    ensures |t| == |field| - 1
    ensures t[..i] == field[..i] && t[i..] == field[i + 1..]
  {
    field[..i] + field[i + 1..]
  }

  /** A one-character prefix equal to the first typed character is taken for the
      prefix itself: that keystroke is swallowed. */
  predicate SwallowsFirst(parked: JString, s: JString) {
    |parked| == 1 && |s| > 0 && parked[0] == s[0]
  }

  /** What the field shows after typing `s` into a freshly constructed widget. */
  function Shown(parked: JString, s: JString): JString {
    if SwallowsFirst(parked, s) then s else parked + s
  }

  /** The first keystroke into a freshly constructed widget. */
  lemma TypeFirst(parked: JString, c: JChar)
    ensures var v := Type(Init(parked), c);
      && v.parked == parked
      && v.field == Shown(parked, [c]) && v.total == v.field
      && v.caret == |v.field|
  {
    var init := Init(parked);
    var t := init.field[..0] + [c] + init.field[0..];
    assert t == [c];
    assert StartsWith(t, parked) <==> parked == [] || parked == [c];
  }

  /** A keystroke at the end of a synced field is accepted as it is. */
  lemma TypeAtEnd(v: View, c: JChar)
    requires Synced(v)
    ensures var r := Type(v, c);
      r.parked == v.parked && r.field == v.field + [c] && Synced(r)
  {
    var t := v.field[..|v.field|] + [c] + v.field[|v.field|..];
    assert t == v.field + [c];
    StartsWithIffConcat(v.field, v.parked);
    assert t == v.parked + (v.field[|v.parked|..] + [c]);
    StartsWithConcat(v.parked, v.field[|v.parked|..] + [c]);
  }

  /** Typing a non-empty text into a freshly initialised widget leaves it synced and
      showing `Shown`. */
  lemma {:induction false} TypeAllShown(parked: JString, s: JString)
    requires s != []
    ensures var v := TypeAll(Init(parked), s);
      && v.parked == parked
      && v.field == Shown(parked, s)
      && Synced(v)
    decreases |s|
  {
    var front := s[..|s| - 1];
    var c := s[|s| - 1];
    if front == [] {
      assert s == [c];
      TypeFirst(parked, c);
    } else {
      TypeAllShown(parked, front);
      TypeAtEnd(TypeAll(Init(parked), front), c);
      assert s[0] == front[0];
      assert Shown(parked, s) == Shown(parked, front) + [c];
    }
  }

  /** Typing a non-empty `s` into a freshly constructed widget shows the prefix
      followed by `s`, caret last, exactly when the first keystroke is not swallowed
      by a one-character prefix equal to it; when it is swallowed the field shows `s`. */
  lemma {:induction false} TypingShowsPrefixThenText(parked: JString, s: JString)
    requires s != []
    ensures var v := TypeAll(Construct(NonNull(parked)), s);
      && Synced(v)
      && (v.field == parked + s <==> !SwallowsFirst(parked, s))
      && (SwallowsFirst(parked, s) ==> v.field == s)
  {
    TypeAllShown(parked, s);
    if SwallowsFirst(parked, s) {
      assert |parked + s| != |s|;
    }
  }

  /** Deleting a character inside the prefix of a synced field of at least three
      code units either restores the field untouched or, when the shifted text still
      begins with the prefix, has the same effect as deleting the first typed
      unit. On a field of at most two units whose remaining text no longer begins
      with the prefix, that text is kept as typed text after the restored prefix. */
  lemma DeleteInsidePrefix(v: View, i: nat)
    requires Synced(v) && i < |v.parked|
    ensures var t := DeleteAt(v.field, i);
      var r := AfterTextChanged(v, t);
      && r.parked == v.parked
      && (3 <= |v.field| && !StartsWith(t, v.parked) ==> r == v)
      && (StartsWith(t, v.parked) ==>
            |v.field| > |v.parked| && r.total == v.parked + v.field[|v.parked| + 1..])
      && (|v.field| <= 2 && !StartsWith(t, v.parked) ==> r.total == v.parked + t)
  {
    var t := DeleteAt(v.field, i);
    var p := v.parked;
    StartsWithIffConcat(v.field, p);
    if StartsWith(t, p) {
      assert |v.field| > |p|;
      assert t == p[..i] + p[i + 1..] + v.field[|p|..] by {
        assert v.field[..i] == p[..i];
        assert v.field[i + 1..] == p[i + 1..] + v.field[|p|..];
      }
      assert t[|p| - 1..] == v.field[|p|..];
      assert t[|p|..] == v.field[|p| + 1..];
      StartsWithIffConcat(t, p);
    }
  }

  /** A character outside the Basic Multilingual Plane arrives as a surrogate
      pair, two code units at once. Typed into a just-constructed widget, it is
      discarded unless the prefix is empty or an initial part of the pair: the
      field holds two units, so the fresh-field test fails and the edit is
      rejected. */
  lemma SupplementaryFirstKeystrokeRejected(parked: JString, c: char)
    requires (c as int) >= 0x1_0000
    requires !StartsWith(Units(c), parked)
    ensures var v := Commit(Construct(NonNull(parked)), Units(c));
      v.field == parked && v.total == parked && v.caret == |parked|
  {
    var init := Construct(NonNull(parked));
    assert init.field[..0] + Units(c) + init.field[0..] == Units(c);
    StartsWithConcat(parked, []);
    assert parked + [] == parked;
  }

  /** When the pair does start with the prefix (the empty prefix included), the
      first keystroke is accepted and the field shows the pair alone. */
  lemma SupplementaryFirstKeystrokeKept(parked: JString, c: char)
    requires (c as int) >= 0x1_0000
    requires StartsWith(Units(c), parked)
    ensures var v := Commit(Construct(NonNull(parked)), Units(c));
      v.field == Units(c) && v.total == Units(c) && v.caret == 2
  {
    var init := Construct(NonNull(parked));
    assert init.field[..0] + Units(c) + init.field[0..] == Units(c);
  }

  /** With the prefix "+1 ", a first keystroke U+1F600 leaves the field showing
      "+1 " alone. */
  lemma EmojiFirstKeystrokeDiscarded()
    ensures Commit(Construct(NonNull(Utf16("+1 "))), Utf16("\U{1F600}")).field == Utf16("+1 ")
  {
    assert Utf16("\U{1F600}") == Units('\U{1F600}') by {
      assert "\U{1F600}"[1..] == [];
    }
    assert !StartsWith(Units('\U{1F600}'), Utf16("+1 ")) by {
      BmpLength("+1 ");
    }
    SupplementaryFirstKeystrokeRejected(Utf16("+1 "), '\U{1F600}');
  }

  /** With the same prefix, a first keystroke '5' shows "+1 5". */
  lemma DigitFirstKeystrokeShown()
    ensures Commit(Construct(NonNull(Utf16("+1 "))), Utf16("5")).field == Utf16("+1 5")
  {
    assert Utf16("5") == [Utf16("5")[0]];
    assert Utf16("+1 5") == Utf16("+1 ") + Utf16("5") by {
      Utf16Concat("+1 ", "5");
    }
    assert |Utf16("+1 ")| == 3 by {
      BmpLength("+1 ");
    }
    TypeFirst(Utf16("+1 "), Utf16("5")[0]);
  }

  /** Text in the Basic Multilingual Plane, typed one character at a time after a
      prefix that is not a single character: the field shows the encoding of the
      prefix followed by the text, one code unit per character, caret last. */
  lemma TypingBmpText(prefix: string, s: string)
    requires Bmp(prefix) && Bmp(s) && |prefix| != 1 && s != []
    ensures var v := TypeAll(Construct(NonNull(Utf16(prefix))), Utf16(s));
      v.field == Utf16(prefix + s) && v.caret == |prefix| + |s|
  {
    BmpLength(prefix);
    BmpLength(s);
    Utf16Concat(prefix, s);
    TypingShowsPrefixThenText(Utf16(prefix), Utf16(s));
  }

  /** A prefix of "+1 " and the digits 5551234567 typed in: the field shows
      "+1 " then the digits, with the caret at index 13. */
  lemma TypingPhoneNumber()
    ensures var v := TypeAll(Construct(NonNull(Utf16("+1 "))), Utf16("5551234567"));
      v.field == Utf16("+1 ") + Utf16("5551234567") && v.caret == 13
  {
    TypingBmpText("+1 ", "5551234567");
    Utf16Concat("+1 ", "5551234567");
  }

  /** Selecting the whole field and deleting it leaves the prefix alone, caret
      last: "+1 555" becomes "+1 ". */
  lemma ClearingLeavesPrefix(v: View)
    requires v.parked != []
    ensures var r := AfterTextChanged(v, []);
      r.field == v.parked && r.total == v.parked && r.caret == |v.parked|
  {
    assert v.parked + [] == v.parked;
  }

  /** With a two-unit prefix `ab`: type `x`, then backspace twice. The first
      backspace leaves `ab`; the second leaves the single unit `a`, which the
      fresh-field branch keeps after the prefix, showing `aba`. */
  lemma BackspaceOnTwoCharacterPrefix(a: JChar, b: JChar, x: JChar)
    ensures var v1 := Type(Construct(NonNull([a, b])), x);
      var v2 := AfterTextChanged(v1, DeleteAt(v1.field, 2));
      var v3 := AfterTextChanged(v2, DeleteAt(v2.field, 1));
      v1.field == [a, b, x] && v2.field == [a, b] && v3.field == [a, b, a]
  {
    TypeFirst([a, b], x);
    var v1 := Type(Construct(NonNull([a, b])), x);
    assert DeleteAt(v1.field, 2) == [a, b];
    assert DeleteAt([a, b], 1) == [a];
  }
}

=== FILE: java_lang.dfy ===
/**
 The small part of java.lang.String and android.text.TextUtils that the widget
 relies on.

 A Java string is a sequence of UTF-16 code units, and `length()`, `substring`
 and `startsWith` all count in those units. So a Java string is modelled as a
 `JString`, a sequence of `JChar` code units, and not as a Dafny `string`, whose
 `char`s are whole Unicode scalar values. `Utf16` encodes Dafny text the way a
 Java string literal holds it.
 */
module JavaLang {

  /** A Java `char`: one UTF-16 code unit. */
  newtype JChar = x: int | 0 <= x < 0x1_0000

  /** A `java.lang.String`, as its code units. */
  type JString = seq<JChar>

  /** A Java reference that may be null. */
  datatype Nullable<+T> = Null | NonNull(value: T)

  /** The exceptions the modelled code can raise. */
  datatype Exception = StringIndexOutOfBounds | NullPointer

  /** The outcome of a Java call: a returned value or a thrown exception. */
  datatype Throws<+T> = Returns(value: T) | Threw(exception: Exception)

  /** The code units of one Unicode scalar value: itself when it lies in the Basic
      Multilingual Plane, a surrogate pair otherwise. */
  function Units(c: char): (r: JString)
    ensures 1 <= |r| <= 2
    ensures |r| == 1 <==> (c as int) < 0x1_0000
  {
    var n := c as int;
    if n < 0x1_0000 then [n as JChar]
    else [(0xD800 + (n - 0x1_0000) / 0x400) as JChar, (0xDC00 + (n - 0x1_0000) % 0x400) as JChar]
  }

  /** The UTF-16 encoding of a text. */
  function Utf16(s: string): (r: JString)
    ensures |s| <= |r|
  {
    if s == [] then [] else Units(s[0]) + Utf16(s[1..])
  }

  /** Every character lies in the Basic Multilingual Plane. */
  predicate Bmp(s: string) {
    forall i :: 0 <= i < |s| ==> (s[i] as int) < 0x1_0000
  }

  /** A text in the Basic Multilingual Plane has one code unit per character. */
  lemma {:induction false} BmpLength(s: string)
    requires Bmp(s)
    ensures |Utf16(s)| == |s|
    decreases |s|
  {
    if s != [] {
      assert Bmp(s[1..]);
      BmpLength(s[1..]);
    }
  }

  /** Encoding distributes over concatenation. */
  lemma {:induction false} Utf16Concat(a: string, b: string)
    ensures Utf16(a + b) == Utf16(a) + Utf16(b)
    decreases |a|
  {
    if a == [] {
      assert a + b == b;
    } else {
      assert (a + b)[0] == a[0];
      assert (a + b)[1..] == a[1..] + b;
      Utf16Concat(a[1..], b);
    }
  }

  /** `s.startsWith(prefix)`: `prefix` is an initial segment of `s`. */
  predicate StartsWith(s: JString, prefix: JString) {
    |prefix| <= |s| && s[..|prefix|] == prefix
  }

  /** `TextUtils.isEmpty(s)`: null or of length zero. */
  predicate IsEmpty(s: Nullable<JString>) {
    s.Null? || s.value == []
  }

  /** `s.substring(begin)`: throws unless `begin <= s.length()`. */
  function Substring(s: JString, begin: nat): (r: Throws<JString>)
    ensures r.Returns? <==> begin <= |s|
    ensures r.Returns? ==> s == s[..begin] + r.value
    ensures r.Threw? ==> r.exception == StringIndexOutOfBounds
  {
    if begin <= |s| then Returns(s[begin..])
    else Threw(StringIndexOutOfBounds)
  }

  /** A string starts with `prefix` exactly when it is `prefix` followed by something. */
  lemma StartsWithIffConcat(s: JString, prefix: JString)
    ensures StartsWith(s, prefix) <==> |prefix| <= |s| && s == prefix + s[|prefix|..]
  {
    if StartsWith(s, prefix) {
      assert s == s[..|prefix|] + s[|prefix|..];
    }
  }

  lemma StartsWithConcat(prefix: JString, rest: JString)
    ensures StartsWith(prefix + rest, prefix)
    ensures (prefix + rest)[|prefix|..] == rest
  {
    assert (prefix + rest)[..|prefix|] == prefix;
  }
}

=== FILE: parked_text_view.dfy ===
/**
 The prefix bookkeeping of ParkedTextView, an Android EditText whose contents
 always begin with a fixed "parked" text.

 The widget is an immutable `View`: the parked prefix (`mParkedText`), the
 bookkeeping copy of the whole contents (`mTotalText`), and the EditText it
 drives, reduced to its plain text (`field`) and its caret position.
 Every source method becomes a pure transition on `View`.
 */
module ParkedTextView {
  import opened JavaLang

  datatype View = View(parked: JString, total: JString, field: JString, caret: nat)

  /** The state the widget is meant to rest in after an edit: the field shows the
      bookkeeping text, that text begins with the prefix, and the caret is last. */
  predicate Synced(v: View) {
    && v.field == v.total
    && StartsWith(v.total, v.parked)
    && v.caret == |v.field|
  }

  /** What every reachable state satisfies: the caret is last, and the
      bookkeeping text begins with the prefix unless it is empty. */
  predicate Consistent(v: View) {
    && v.caret == |v.field|
    && (v.total == [] || StartsWith(v.total, v.parked))
  }

  /** `getTypedText()`: the bookkeeping text with the prefix taken off the front,
      or the whole text when it does not begin with the prefix. */
  function TypedText(parked: JString, total: JString): (typed: JString)
    ensures StartsWith(total, parked) ==> parked + typed == total
    ensures !StartsWith(total, parked) ==> typed == total
  {
    if StartsWith(total, parked) then
      StartsWithIffConcat(total, parked);
      total[|parked|..]
    else total
  }

  /** Taking the prefix off a prefixed text gives back exactly what followed it. */
  lemma TypedTextAfterPrefix(parked: JString, typed: JString)
    ensures TypedText(parked, parked + typed) == typed
  {
    StartsWithConcat(parked, typed);
  }

  /** The plain text of `getHtmlText()`: the prefix followed by the typed text
      (both the bold and the plain rendering show the same characters). This takes
      the prefix and typed text to contain no markup, no character entities and no
      whitespace that `Html.fromHtml` would collapse or drop. */
  function Rendered(v: View): (shown: JString)
    ensures StartsWith(shown, v.parked)
    ensures TypedText(v.parked, shown) == TypedText(v.parked, v.total)
    ensures StartsWith(v.total, v.parked) ==> shown == v.total
  {
    var typed := TypedText(v.parked, v.total);
    StartsWithConcat(v.parked, typed);
    TypedTextAfterPrefix(v.parked, typed);
    v.parked + typed
  }

  /** `observeText()`: rebuilds the bookkeeping text as prefix plus typed text. */
  function ObserveText(v: View): (r: View)
    ensures StartsWith(r.total, r.parked)
    ensures r.parked == v.parked && r.field == v.field && r.caret == v.caret
    ensures StartsWith(v.total, v.parked) ==> r == v
    ensures !StartsWith(v.total, v.parked) ==> r.total == v.parked + v.total
  {
    var typed := TypedText(v.parked, v.total);
    StartsWithConcat(v.parked, typed);
    v.(total := v.parked + typed)
  }

  /** `init()` after the prefix is known: the bookkeeping text starts empty and is
      then observed, which leaves exactly the prefix. The EditText is still empty. */
  function Init(parked: JString): (v: View)
    ensures v.parked == parked && v.total == parked
    ensures v.field == [] && v.caret == 0
  {
    assert StartsWith([], parked) <==> parked == [];
    ObserveText(View(parked, [], [], 0))
  }

  /** The attribute-reading constructor. A missing `parkedText` attribute means the
      empty prefix. The constructor's `setParkedText` call runs while `mTotalText`
      is still null, so it only stores the prefix; that call is folded in here
      rather than made through `SetParkedText`. `init()` then observes the text. */
  function Construct(parkedAttribute: Nullable<JString>): (v: View)
    ensures parkedAttribute.Null? ==> v.parked == []
    ensures parkedAttribute.NonNull? ==> v.parked == parkedAttribute.value
    ensures v.total == v.parked && v.field == [] && v.caret == 0
    ensures Consistent(v)
  {
    var parked := if parkedAttribute.Null? then [] else parkedAttribute.value;
    Init(parked)
  }

  /** `goToEndOfText()`: moves the caret after the last character of the field. */
  function GoToEndOfText(v: View): (r: View)
    ensures r.caret == |r.field|
    ensures r.parked == v.parked && r.total == v.total && r.field == v.field
  {
    v.(caret := |v.field|)
  }

  /** The three ways `textChanged` can treat an incoming text. */
  datatype Branch =
    | Accept  // the text already begins with the prefix
    | Fresh   // the field holds at most one character: the prefix is put in front
    | Reject  // anything else: the edit is discarded

  /** Which branch `textChanged(t)` takes. The second test reads the field, not `t`. */
  function Classify(v: View, t: JString): (b: Branch)
    ensures b == Accept <==> StartsWith(t, v.parked)
    ensures b == Fresh <==> !StartsWith(t, v.parked) && |v.field| <= 1
  {
    if StartsWith(t, v.parked) then Accept
    else if |v.field| <= 1 then Fresh
    else Reject
  }

  /** `textChanged(t)`. Accepting keeps the field as it is; the two other branches
      re-render the field from the bookkeeping text. The caret always ends last. */
  function TextChanged(v: View, t: JString): (r: View)
    ensures r.parked == v.parked
    ensures StartsWith(r.total, r.parked)
    ensures r.caret == |r.field|
    ensures Classify(v, t) == Accept ==> r.total == t && r.field == v.field
    ensures Classify(v, t) != Accept ==> r.field == r.total
    ensures Classify(v, t) == Fresh ==> TypedText(r.parked, r.total) == t
    ensures Classify(v, t) == Reject ==>
              TypedText(r.parked, r.total) == TypedText(v.parked, v.total)
    ensures Classify(v, t) == Reject && StartsWith(v.total, v.parked) ==> r.total == v.total
  {
    match Classify(v, t)
    case Accept =>
      GoToEndOfText(v.(total := t))
    case Fresh =>
      var w := v.(total := v.parked + t);
      StartsWithConcat(v.parked, t);
      TypedTextAfterPrefix(v.parked, t);
      GoToEndOfText(w.(field := Rendered(w)))
    case Reject =>
      var w := ObserveText(v);
      TypedTextAfterPrefix(v.parked, TypedText(v.parked, v.total));
      GoToEndOfText(w.(field := Rendered(w)))
  }

  /** `ParkedTextViewWatcher.afterTextChanged`: the user's edit has already put `t`
      into the field; the watcher (detached meanwhile) hands it to `textChanged`.
      Whatever the state before, the widget ends synced. */
  function AfterTextChanged(v: View, t: JString): (r: View)
    ensures Synced(r) && Consistent(r)
    ensures r.parked == v.parked
    ensures StartsWith(t, v.parked) ==> r.total == t
    ensures !StartsWith(t, v.parked) && |t| <= 1 ==> r.total == v.parked + t
    ensures !StartsWith(t, v.parked) && 1 < |t| ==>
              TypedText(r.parked, r.total) == TypedText(v.parked, v.total)
    ensures !StartsWith(t, v.parked) && 1 < |t| && StartsWith(v.total, v.parked) ==>
              r.total == v.total
  {
    var r := TextChanged(v.(field := t), t);
    TypedTextAfterPrefix(v.parked, t);
    StartsWithIffConcat(r.total, v.parked);
    r
  }

  /** `setParkedText(p)`. A null `p` makes `Html.fromHtml` throw before anything
      changes. On an empty bookkeeping text only the prefix is replaced. Otherwise
      the old text is sliced at the NEW prefix's length (which throws when `p` is
      longer than the text), the new prefix is put in front, and the result is fed
      to `textChanged`, which always accepts it: the field is not re-rendered. */
  function SetParkedText(v: View, prefix: Nullable<JString>): (r: Throws<View>)
    ensures prefix.Null? ==> r == Threw(NullPointer)
    ensures prefix.NonNull? ==>
              (r.Threw? <==> v.total != [] && |v.total| < |prefix.value|)
    ensures prefix.NonNull? && v.total == [] ==> r == Returns(v.(parked := prefix.value))
    ensures prefix.NonNull? && r.Returns? && v.total != [] ==>
              var p := prefix.value;
              && r.value.parked == p
              && StartsWith(r.value.total, p)
              && |r.value.total| == |v.total|
              && r.value.total[|p|..] == v.total[|p|..]
              && r.value.field == v.field
              && r.value.caret == |v.field|
  {
    if prefix.Null? then Threw(NullPointer)
    else
    var p := prefix.value;
    if !IsEmpty(NonNull(v.total)) then
      match Substring(v.total, |p|)
      case Threw(e) => Threw(e)
      case Returns(typed) =>
        var w := v.(total := p + typed, parked := p);
        StartsWithConcat(p, typed);
        assert Classify(w, w.total) == Accept;
        Returns(TextChanged(w, w.total))
    else
      Returns(v.(parked := p))
  }

  /** Every state the widget can reach stays consistent: construction establishes
      it, an edit re-establishes it, and a `setParkedText` that does not throw keeps
      it (on an empty text the new prefix is not in the text, hence the disjunct). */
  lemma SetParkedTextKeepsConsistent(v: View, p: Nullable<JString>)
    requires Consistent(v)
    ensures SetParkedText(v, p).Returns? ==> Consistent(SetParkedText(v, p).value)
  {
  }

  /** Re-parking the prefix a synced text already starts with changes nothing but
      the caret, which goes last. */
  lemma SetParkedTextSamePrefix(v: View)
    requires v.total != [] && StartsWith(v.total, v.parked)
    ensures SetParkedText(v, NonNull(v.parked)) == Returns(GoToEndOfText(v))
  {
    StartsWithIffConcat(v.total, v.parked);
  }

  /** `reformatColor(c)`: drops one leading '#', then drops two more leading
      characters (the alpha byte) when more than six remain. */
  function ReformatColor(color: JString): (r: JString)
    ensures |color| - 3 <= |r| <= |color|
    ensures r == color[|color| - |r|..]
    ensures r == color <==> !StartsWith(color, Hash) && |color| <= 6
    ensures |color| <= 8 ==> |r| <= 6
  {
    var c := if StartsWith(color, Hash) then color[1..] else color;
    if |c| > 6 then c[2..] else c
  }

  /** The string "#". */
  const Hash: JString := Utf16("#")

  /** '0'-'9', 'a'-'f' or 'A'-'F'. */
  predicate IsHexDigit(u: JChar) {
    0x30 <= u <= 0x39 || 0x61 <= u <= 0x66 || 0x41 <= u <= 0x46
  }

  predicate IsHex(s: JString) {
    forall i :: 0 <= i < |s| ==> IsHexDigit(s[i])
  }

  /** Each of the colour forms RRGGBB, #RRGGBB, AARRGGBB and #AARRGGBB is
      normalised to its six RRGGBB digits. */
  lemma ReformatColorNormalises(hash: bool, alpha: JString, rgb: JString)
    requires IsHex(alpha) && (|alpha| == 0 || |alpha| == 2)
    requires IsHex(rgb) && |rgb| == 6
    ensures ReformatColor((if hash then Hash else []) + alpha + rgb) == rgb
  {
    assert Hash == [0x23];
    var color := (if hash then Hash else []) + alpha + rgb;
    var c := alpha + rgb;
    if hash {
      assert color == Hash + c;
      assert StartsWith(color, Hash);
      assert color[1..] == c;
    } else {
      assert color == c;
      if |alpha| == 2 {
        assert c[0] == alpha[0];
      } else {
        assert c[0] == rgb[0];
      }
      assert !IsHexDigit(0x23);
      assert !StartsWith(color, Hash);
    }
    if |alpha| == 2 {
      assert c[2..] == rgb;
    } else {
      assert c == rgb;
    }
  }
}

=== FILE: prefix_swap.dfy ===
/**
 Replacing the parked prefix of a widget that already holds text.

 `setParkedText` slices the old text at the length of the NEW prefix rather
 than taking the OLD prefix off. When the two prefixes differ in length the
 typed text loses or gains characters, and a new prefix longer than the whole
 text makes `substring` throw. `SetParkedTextKeepingTyped` is the evidently
 intended operation: the new prefix followed by the old typed text.
 */
module PrefixSwap {
  import opened JavaLang
  import opened ParkedTextView
  import Editing

  /** As written, the typed text survives a prefix swap exactly when the two
      prefixes have the same length. */
  lemma SetParkedTextKeepsTypedOnlyForSameLength(v: View, p: JString)
    requires v.total != [] && StartsWith(v.total, v.parked)
    requires |p| <= |v.total|
    ensures SetParkedText(v, NonNull(p)).Returns?
    ensures TypedText(p, SetParkedText(v, NonNull(p)).value.total) == TypedText(v.parked, v.total)
            <==> |p| == |v.parked|
  {
    var r := SetParkedText(v, NonNull(p)).value;
    StartsWithIffConcat(v.total, v.parked);
    StartsWithIffConcat(r.total, p);
    assert TypedText(p, r.total) == r.total[|p|..];
    assert TypedText(v.parked, v.total) == v.total[|v.parked|..];
  }

  /** As written, a new prefix one code unit longer than the old one swallows the
      first typed code unit. */
  lemma SetParkedTextLosesTypedCharacter(v: View, p: JString)
    requires StartsWith(v.total, v.parked) && |v.parked| < |v.total|
    requires |p| == |v.parked| + 1
    ensures SetParkedText(v, NonNull(p)).Returns?
    ensures SetParkedText(v, NonNull(p)).value.total == p + TypedText(v.parked, v.total)[1..]
  {
    var r := SetParkedText(v, NonNull(p)).value;
    StartsWithIffConcat(r.total, p);
    assert v.total[|p|..] == TypedText(v.parked, v.total)[1..];
  }

  /** Swapping the prefix "+1 " for "+44 " while "555" is typed shows "+44 55". */
  lemma SwapPhonePrefix()
    ensures var v := View(Utf16("+1 "), Utf16("+1 ") + Utf16("555"), Utf16("+1 ") + Utf16("555"), 6);
      SetParkedText(v, NonNull(Utf16("+44 "))).Returns?
      && SetParkedText(v, NonNull(Utf16("+44 "))).value.total == Utf16("+44 ") + Utf16("55")
  {
    BmpLength("+1 ");
    BmpLength("+44 ");
    BmpLength("555");
    StartsWithConcat(Utf16("+1 "), Utf16("555"));
    SetParkedTextLosesTypedCharacter(View(Utf16("+1 "), Utf16("+1 ") + Utf16("555"), Utf16("+1 ") + Utf16("555"), 6), Utf16("+44 "));
    Utf16Concat("5", "55");
    assert "5" + "55" == "555";
  }

  /** With no prefix and a text `s` typed, parking a prefix no longer than `s`
      overwrites the first `|p|` typed code units with it. */
  lemma SetParkedTextOverTypedText(s: JString, p: JString)
    requires s != [] && |p| <= |s|
    ensures var v := Editing.TypeAll(Construct(Null), s);
      && v.field == s
      && SetParkedText(v, NonNull(p)).Returns?
      && SetParkedText(v, NonNull(p)).value.total == p + s[|p|..]
  {
    var v := Editing.TypeAll(Construct(Null), s);
    assert v.field == s && v.total == s by {
      Editing.TypingShowsPrefixThenText([], s);
      assert [] + s == s;
    }
    var r := SetParkedText(v, NonNull(p)).value;
    StartsWithIffConcat(r.total, p);
  }

  /** On the plain constructor's empty prefix with "Hello" typed, parking "Re: "
      keeps only the "o" beyond the new prefix's length: the text becomes "Re: o". */
  lemma SetParkedTextOnHello()
    ensures var v := Editing.TypeAll(Construct(Null), Utf16("Hello"));
      && v.field == Utf16("Hello")
      && SetParkedText(v, NonNull(Utf16("Re: "))).Returns?
      && SetParkedText(v, NonNull(Utf16("Re: "))).value.total == Utf16("Re: ") + Utf16("o")
  {
    BmpLength("Re: ");
    BmpLength("Hell");
    Utf16Concat("Hell", "o");
    assert "Hell" + "o" == "Hello";
    assert Utf16("Hello")[4..] == Utf16("o");
    SetParkedTextOverTypedText(Utf16("Hello"), Utf16("Re: "));
  }

  /** A reachable state in which `setParkedText` throws: no prefix, the user types
      one character, and the host parks a two-character prefix. */
  lemma SetParkedTextThrowsWhenLonger(a: JChar, b: JChar)
    ensures var v := Editing.Type(Construct(Null), a);
      && v.total == [a]
      && SetParkedText(v, NonNull([a, b])) == Threw(StringIndexOutOfBounds)
  {
    Editing.TypeFirst([], a);
  }

  /** Parking a prefix while the text is empty leaves the text without it: the
      prefix only appears with the next keystroke, as in "$" then "5" giving "$5". */
  lemma SetParkedTextOnEmptyTextDefersPrefix(p: JString, c: JChar)
    requires p != [] && p != [c]
    ensures var v := SetParkedText(Construct(Null), NonNull(p)).value;
      && v.parked == p && v.total == []
      && !StartsWith(v.total, v.parked)
      && Editing.Type(v, c).field == p + [c]
  {
    var v := SetParkedText(Construct(Null), NonNull(p)).value;
    assert v.field[..0] + [c] + v.field[0..] == [c];
  }

  /** The intended prefix swap: the old prefix is taken off, the new one put in
      front of the same typed text. It never throws. */
  function SetParkedTextKeepingTyped(v: View, p: JString): (r: View)
    ensures r.parked == p
    ensures v.total == [] ==> r == v.(parked := p)
    ensures v.total != [] ==>
              && StartsWith(r.total, p)
              && TypedText(p, r.total) == TypedText(v.parked, v.total)
              && r.field == v.field
              && r.caret == |v.field|
  {
    if !IsEmpty(NonNull(v.total)) then
      var typed := TypedText(v.parked, v.total);
      var w := v.(total := p + typed, parked := p);
      StartsWithConcat(p, typed);
      TypedTextAfterPrefix(p, typed);
      TextChanged(w, w.total)
    else
      v.(parked := p)
  }

  /** Where the source's slice does the intended thing (a prefixed text and a new
      prefix of the same length), the two operations agree. */
  lemma KeepingTypedAgreesForSameLength(v: View, p: JString)
    requires StartsWith(v.total, v.parked) && |p| == |v.parked|
    ensures SetParkedText(v, NonNull(p)) == Returns(SetParkedTextKeepingTyped(v, p))
  {
    StartsWithIffConcat(v.total, v.parked);
  }

  /** The intended swap keeps every reachable state consistent, and swapping to a
      non-empty prefix and back restores the bookkeeping text. */
  lemma KeepingTypedRoundTrip(v: View, p: JString)
    requires Consistent(v)
    ensures Consistent(SetParkedTextKeepingTyped(v, p))
    ensures p != [] && StartsWith(v.total, v.parked) ==>
              SetParkedTextKeepingTyped(SetParkedTextKeepingTyped(v, p), v.parked).total == v.total
  {
    if p != [] && v.total != [] && StartsWith(v.total, v.parked) {
      var r := SetParkedTextKeepingTyped(v, p);
      assert r.total != [] by {
        assert |p| <= |r.total|;
      }
      var back := SetParkedTextKeepingTyped(r, v.parked);
      assert v.parked + TypedText(v.parked, back.total) == back.total;
      assert v.parked + TypedText(v.parked, v.total) == v.total;
    }
  }
}
